=== FILE: README.md ===
# Thermal printer server: bookkeeping model

This project models the small stateful core of a print server for thermal
receipt printers. Clients POST an image, given as a base64 `data:` URL,
together with a printer config. The server prints the image on an
EPSON-compatible network printer through the `node-thermal-printer` driver and
answers with a JSON object.

What the server does itself, and what this project models, is the bookkeeping
around the driver calls:

- **Dedup window** (`processedIdList`). This is the list of the ids of recent
  `/print` requests, capped at 10.
  - A request whose id is already in the window is dropped, and no response is
    sent.
  - A new id is appended, and the list is cut to its last 10 entries.
  - When `print` throws, every copy of the id is removed again.
  - `print` also serves `/test`, so a failing `/test` removes its id too.
- **Outcome log** (`printActionLogs`). The last 10 results of successful
  `/print` calls.
- **Checks around the device**: the printer-address check of `createPrinter`,
  the validation order of `/test`, the extraction `image.split(",")[1]` of the
  base64 text from the `data:` URL (section 3 of RFC 2397), and the response
  shapes of `/print`, `/test` and `/health-check`.

The driver is abstracted to the outcome it reports. A print job either
`Completes` or `Throws(message)`. The connectivity probe either `Answers(bool)`
or `ProbeThrows(message)`.

There is no job queue, busy flag or FIFO dispatch in the server. Concurrent
`/print` requests call `print` concurrently. So a `/print` request is modelled
as two separate events:
1. `ArrivePrint`: the synchronous check-and-push of lines 82–87. It has no
   suspension point, so it is one atomic step.
2. `SettlePrint`: the later settling of that request's `print` call.

Any other events may happen between the two. `Server.Run` folds an arbitrary
sequence of such events. The lemmas about it hold for every interleaving.
When `print` throws before its first `await` (no address, an image that is
not a string, or no comma), its `catch` runs in the same synchronous turn as
the admission, so in the code nothing can come in between. Allowing events in
between there too makes the model more permissive than the code, and every
lemma still holds.

Four behaviours of the code are easy to miss:
- Concurrent `/print` requests are not serialised. Nothing queues them or
  marks the printer as busy.
- A `/test` whose `print` throws also removes its id from the window
  (`Server.TestFailureReopensId`).
- Only successful `/print` results are logged
  (`Server.LogIsNewestCompleted`).
- A successful `/test` answers with `data` set to the request body plus an
  `imgBuffer` field (`Server.WithBuffer`).

Modules:
- `Json`: parsed JSON values, JavaScript truthiness and property reads.
- `Bounded`: the `push` + `slice(-10)` pattern.
- `DedupWindow`: the dedup window's admit and forget steps.
- `DataUrl`: `split(",")[1]`.
- `Printer`: `createPrinter`, the body of `print`, errors and responses.
- `Server`: the routes, the two lists and event traces.

## Model

| member | source | states |
|---|---|---|
| `Json.Property` | index.js:21 | For the keys the server reads or sets, reading a property throws exactly on `undefined` and `null`. On any other non-object, those keys are absent. |
| `Bounded.Last` | index.js:87 | For a positive `n`, `slice(-n)` keeps `min(|s|, n)` elements, and they are the tail of `s`. |
| `Bounded.Push` | index.js:86-87 | After push-then-trim, the list has at most 10 entries. The pushed value is the newest entry. The older entries are the newest ones of the old list, in their original order. |
| `Bounded.LastAbsorbs` | index.js:93-94 | Trimming to the last `n` and then appending more, then trimming again, equals trimming once at the end. |
| `DedupWindow.Admit` | index.js:82-87 | A request is a duplicate exactly when its id is in the window. Otherwise the id becomes the newest entry, and the window keeps its last 10 entries in their original order. |
| `DedupWindow.Forget` | index.js:52 | The failed id no longer occurs. Every other id in the window is still there. The window does not grow. |
| `DedupWindow.ForgetConcat` | index.js:52 | Filtering commutes with concatenation, so the ids that remain keep their relative order. |
| `DedupWindow.ForgetAbsent` | index.js:52 | Forgetting an id that is not in the window changes nothing. |
| `DedupWindow.ForgetAt` | index.js:52 | In a window without duplicates, forgetting the id at index `i` removes exactly that entry and nothing else. |
| `DedupWindow.AdmitPreserves` | index.js:82-87 | Admitting keeps the window at most 10 long and free of duplicates. |
| `DedupWindow.ForgetPreserves` | index.js:52 | Forgetting keeps the window at most 10 long and free of duplicates. |
| `DedupWindow.ReplayKeepsWellFormed` | index.js:82-87 | Under any mix of arrivals and failures, a window that starts empty or well formed never holds more than 10 ids or any id twice. |
| `DedupWindow.ReplayConcat` | index.js:52 | Replaying two runs of window events one after the other equals replaying their concatenation. |
| `DedupWindow.AdmitEvictsOldest` | index.js:86-87 | On a full window, admitting a new id evicts exactly the oldest entry, which is then no longer in the window. |
| `DataUrl.Split` | index.js:43 | `split` returns at least one part. No part contains the separator. There is a single part exactly when the separator does not occur. |
| `DataUrl.JoinSplit` | index.js:43 | Joining the parts of a split gives back the original string. |
| `DataUrl.SplitJoin` | index.js:43 | Splitting a join of separator-free parts gives back those parts. |
| `DataUrl.Payload` | index.js:43 | `image.split(",")[1]` is `undefined` exactly when the image has no comma. Otherwise the result contains no comma. |
| `DataUrl.PayloadBetweenCommas` | index.js:43 | The extracted text is the text between the first comma and the next comma or the end of the string. |
| `DataUrl.PayloadOfBase64Url` | index.js:112 | For `data:<mediatype>;base64,<data>` with no commas in the media type or the data, the extracted text is exactly `<data>`. |
| `Printer.CreatePrinter` | index.js:20-35 | A printer is created exactly when the config is an object with a truthy `TCP_ADDRESS`. The printer uses that address and keeps the config as `DETAILS`. A missing address fails with `AddressNotDefined`, whose message is "Printer TCP address is not defined.". An `undefined` or `null` config raises a TypeError. |
| `Printer.ImagePayload` | index.js:43 | Extraction succeeds exactly for a string image that contains a comma, and yields its `Payload`. A string without a comma gives `PayloadMissing`. Any other value gives `ImageNotText`. |
| `Printer.Attempt` | index.js:38-50 | `print` succeeds exactly when the config check, the image extraction and the driver all succeed. The checks run in that order, and the first error is the one thrown. When the config and the image pass and the driver throws, the driver's message is thrown. The driver's error is thrown only when the driver threw. On success the result is `{SUCCESS: true, id: data.id, data}`. |
| `Server.Print` | index.js:38-55 | On success, the window is unchanged. On a throw, every copy of `data.id` is removed, so that id is admitted again. The window invariant is kept. |
| `Server.ArrivePrint` | index.js:82-87 | A request with an id already in the window is ignored: no response, and neither list changes. Otherwise its id becomes the newest window entry and the log is unchanged. |
| `Server.SettlePrint` | index.js:89-98 | On success, the response is `{SUCCESS, id, data: body}` and becomes the newest log entry, and the window is unchanged. Whenever `print` throws, the response is `{data: body, ERROR: true}` with the thrown error. The log is then unchanged and the id leaves the window. |
| `Server.Test` | index.js:102-124 | A missing image is rejected first, with "could not find image.". A missing printer config is rejected second, with "could not find printer". A failed payload extraction is rejected with its own error before `print`. These rejections leave the state unchanged. Once the checks pass, `/test` succeeds exactly when `print` succeeds, and answers `{SUCCESS, id, data}` with the buffered body. When `print` throws, `/test` answers `data: null` with that error and the id leaves the window. The log is never touched. |
| `Server.WithBuffer` | index.js:114-117 | The data handed to `print` has every key of the body, plus `imgBuffer` set to the buffer. `imgBuffer` overrides a body key of the same name. Every other key reads as in the body. |
| `Server.HealthCheck` | index.js:126-144 | The answer echoes the config. `connected` is true exactly when the address is truthy and the probe answers true. A missing address reports `AddressNotDefined`, and a throwing probe reports its message. |
| `Server.Apply` | index.js:79-144 | Every event keeps the window bounded and free of duplicates, and keeps the log bounded. |
| `Server.ApplyMovesWindow` | index.js:79-124 | Each route event changes the window exactly as its window events do. A `/print` arrival is an arrival. A `print` that throws, from `/print` or `/test`, is a failure. Everything else is nothing. |
| `Server.RunMovesWindow` | index.js:79-124 | After any sequence of events, the server's window is the dedup window replayed over the arrivals and failures alone. |
| `Server.AlwaysValid` | index.js:6-7 | Starting from empty lists, under any mix of events, the window never holds more than 10 ids or any id twice, and the log never holds more than 10 entries. |
| `Server.ApplyLogs` | index.js:93-94 | An event appends to the log only the result of a `/print` that succeeded, and the log is then trimmed to 10. |
| `Server.LogIsNewestCompleted` | index.js:89-94 | After any sequence of events, the log is exactly the last 10 results of successful `/print` calls, oldest first. |
| `Server.TestFailureReopensId` | index.js:51-53 | A `/test` that passes validation but whose print fails removes its id from the window. A `/print` with that id is then admitted. |
| `Server.SecondSubmissionIgnored` | index.js:82-84 | The same id submitted twice back to back, with no event in between, is admitted only once. Events in between can re-open the id. A failing `print` of that id can, even from `/test`. So can ten other admissions that evict it. |

## Left out

- Express setup, CORS, the JSON body limit, `app.listen`, the startup banner, `GET /` and console logging: these are I/O and presentation.
- The `node-thermal-printer` driver: `printImageBuffer`, `cut`, `execute`, `beep`, `isPrinterConnected` and the constructor options (EPSON type, width 40, character set). This is a foreign hardware library. A print job is an abstract `Device` outcome and the probe an abstract `Probe` outcome. A throw from the driver's constructor is folded into the `Device` outcome in `print`, so its ordering before the image extraction is not modelled. In `/health-check` (index.js:128) it is folded into the `ProbeThrows` outcome.
- `Buffer.from(text, "base64")` decoding: this is a library call. The buffer is represented by the base64 text it is decoded from (`Json.Buffer`).
- Overlapping executions of `print`: the real interleaving of the driver's asynchronous steps is concurrency. Only the atomic admission step and the later settling of each `print` are modelled, as separate events in any order.
- The wording of TypeErrors raised by the JavaScript runtime: an unreadable config, a non-string image, and a missing payload. These are distinct error kinds whose message text is left unmodelled (`Printer.Message` returns `None`).
- `DedupWindow.Admit`: ids that are objects or arrays compare by reference in JavaScript, so an object id from one request never equals one from another request. The model compares ids structurally, so it would treat two equal object ids as duplicates. For the same reason, in the model a `/test` with an object id whose `print` throws also forgets a structurally equal id that an earlier `/print` put in the window (`Server.Test` calls `DedupWindow.Forget`), whereas in the code the filter at index.js:52, reached from index.js:114, compares a different reference and removes nothing.
- `DedupWindow.Admit`, `Json.Truthy`: JSON numbers are modelled as exact reals, not IEEE doubles. In the code, two numerals that round to the same double (`9007199254740992` and `9007199254740993`) are one id, so the second request is dropped, while the model admits both. A numeral that overflows to `Infinity` cannot be represented. A numeral that underflows to `0`, such as `1e-400`, is falsy in the code but truthy in the model.
- `DedupWindow.Admit`, `Json.Value`: JavaScript strings are UTF-16 code-unit sequences, while Dafny strings hold Unicode scalar values. A JSON string with an unpaired surrogate escape, such as `{"id": "\ud800"}`, is a valid JavaScript string but has no `Json.Str` value, so runs that carry one are outside every lemma. On every other string, equality (`includes`, `!==`) and `split(",")` agree with JavaScript's.
- Request bodies that are JSON arrays: a body is modelled as a JSON object.
- The JSON rendering of `/health-check` responses: `{...config, connected}` lets `connected`, `ERROR` and `errorMessage` overwrite keys of the same name in the config. The model keeps the config and these fields apart.

=== FILE: bounded.dfy ===
/**
 * The two lists the server keeps (the dedup window and the outcome log) are
 * both trimmed with `list.push(x); list = list.slice(-10)`.
 */
module Bounded {

  /** How many entries either list keeps. */
  const Capacity: nat := 10

  /** `s.slice(-n)` for a positive `n`: the last `n` elements, or all of `s`. */
  function Last<T>(s: seq<T>, n: nat): (r: seq<T>)
    requires n > 0
    ensures |r| == if |s| < n then |s| else n
    ensures r == s[|s| - |r|..]
  {
    if |s| <= n then s else s[|s| - n..]
  }

  /** `s.push(x); s = s.slice(-Capacity)`. */
  function Push<T>(s: seq<T>, x: T): (r: seq<T>)
    ensures |r| == if |s| < Capacity then |s| + 1 else Capacity
    ensures r[|r| - 1] == x
    ensures r[..|r| - 1] == s[|s| - (|r| - 1)..]
  {
    Last(s + [x], Capacity)
  }

  /** Trimming early loses nothing that a later trim to the same size keeps. */
  lemma LastAbsorbs<T>(a: seq<T>, b: seq<T>, n: nat)
    requires n > 0
    ensures Last(Last(a, n) + b, n) == Last(a + b, n)
  {
    // The solver can find this alone on some seeds only; spelling out the
    // indices makes the proof cheap on every seed.
    if n < |a| {
      var k := |a| - n;
      var kept := a[k..] + b;
      assert Last(a, n) == a[k..];
      assert |kept| == n + |b| && |a + b| == k + |kept|;
      assert Last(kept, n) == kept[|b|..];
      assert Last(a + b, n) == (a + b)[k + |b|..];
      forall j | 0 <= j < n
        ensures kept[|b|..][j] == (a + b)[k + |b|..][j]
      {
        assert kept[|b|..][j] == kept[|b| + j];
        assert (a + b)[k + |b|..][j] == (a + b)[k + |b| + j];
      }
    }
  }
}

=== FILE: data_url.dfy ===
/**
 * Extraction of the base64 text from an image sent as a `data:` URL
 * (section 3 of RFC 2397: `data:[<mediatype>][;base64],<data>`). The server
 * writes `image.split(",")[1]`: the text between the first comma and the
 * second comma (or the end), and `undefined` when there is no comma.
 */
module DataUrl {
  import opened Wrappers

  /** The separator between a data URL's header and its data. */
  const Comma: char := ','

  /**
   * `s.split(sep)` for a one-character separator: the maximal runs of text
   * between separators, in order; an empty string splits into one empty part.
   */
  function Split(s: string, sep: char): (parts: seq<string>)
    ensures |parts| >= 1
    ensures forall i :: 0 <= i < |parts| ==> sep !in parts[i]
    ensures |parts| == 1 <==> sep !in s
  {
    if |s| == 0 then [""]
    else
      var rest := Split(s[1..], sep);
      if s[0] == sep then [""] + rest
      else [[s[0]] + rest[0]] + rest[1..]
  }

  /** `parts.join(sep)`. */
  function Join(parts: seq<string>, sep: char): string
    requires |parts| >= 1
  {
    if |parts| == 1 then parts[0] else parts[0] + [sep] + Join(parts[1..], sep)
  }

  /** Joining the parts of a split gives back the string. */
  lemma {:induction false} JoinSplit(s: string, sep: char)
    ensures Join(Split(s, sep), sep) == s
  {
    if |s| > 0 {
      JoinSplit(s[1..], sep);
      var rest := Split(s[1..], sep);
      var parts := Split(s, sep);
      assert s == [s[0]] + s[1..];
      if s[0] == sep {
        assert parts == [""] + rest && parts[1..] == rest;
        assert Join(parts, sep) == "" + [sep] + Join(rest, sep);
      } else if |rest| == 1 {
        assert parts == [[s[0]] + rest[0]];
      } else {
        assert parts == [[s[0]] + rest[0]] + rest[1..] && parts[1..] == rest[1..];
        assert Join(parts, sep) == [s[0]] + rest[0] + [sep] + Join(rest[1..], sep);
        assert Join(rest, sep) == rest[0] + [sep] + Join(rest[1..], sep);
      }
    }
  }

  /** A separator-free prefix is glued onto the first part of what follows it. */
  lemma {:induction false} SplitPrefix(p: string, s: string, sep: char)
    requires sep !in p
    ensures Split(p + s, sep) == [p + Split(s, sep)[0]] + Split(s, sep)[1..]
    decreases |p|
  {
    if |p| > 0 {
      SplitPrefix(p[1..], s, sep);
      var parts := Split(s, sep);
      var rest := Split((p + s)[1..], sep);
      assert (p + s)[1..] == p[1..] + s;
      assert rest == [p[1..] + parts[0]] + parts[1..];
      assert (p + s)[0] == p[0] && p[0] != sep;
      assert Split(p + s, sep) == [[p[0]] + rest[0]] + rest[1..];
      assert [p[0]] + (p[1..] + parts[0]) == p + parts[0];
    } else {
      var parts := Split(s, sep);
      assert p + s == s && p + parts[0] == parts[0];
      assert parts == [parts[0]] + parts[1..];
    }
  }

  /** Text up to a separator becomes a part of its own. */
  lemma SplitAtSeparator(p: string, s: string, sep: char)
    requires sep !in p
    ensures Split(p + [sep] + s, sep) == [p] + Split(s, sep)
  {
    assert ([sep] + s)[1..] == s;
    SplitPrefix(p, [sep] + s, sep);
    assert p + [sep] + s == p + ([sep] + s);
    assert p + "" == p;
  }

  /** A string without the separator splits into itself alone. */
  lemma SplitFree(s: string, sep: char)
    requires sep !in s
    ensures Split(s, sep) == [s]
  {
    SplitPrefix(s, "", sep);
    assert s + "" == s;
  }

  /**
   * Splitting a join of separator-free parts gives back the parts: a split
   * is the only way to cut a string at its separators.
   */
  lemma {:induction false} SplitJoin(parts: seq<string>, sep: char)
    requires |parts| >= 1
    requires forall i :: 0 <= i < |parts| ==> sep !in parts[i]
    ensures Split(Join(parts, sep), sep) == parts
    decreases |parts|
  {
    if |parts| == 1 {
      SplitFree(parts[0], sep);
    } else {
      assert forall i :: 0 <= i < |parts[1..]| ==> sep !in parts[1..][i];
      SplitJoin(parts[1..], sep);
      SplitAtSeparator(parts[0], Join(parts[1..], sep), sep);
      assert parts == [parts[0]] + parts[1..];
    }
  }

  /** `image.split(",")[1]`: `None` is the `undefined` of an image without a comma. */
  function Payload(image: string): (r: Option<string>)
    ensures r.None? <==> Comma !in image
    ensures r.Some? ==> Comma !in r.value
  {
    var parts := Split(image, Comma);
    if |parts| >= 2 then Some(parts[1]) else None
  }

  /**
   * The payload is the text between the first comma and the next comma or
   * the end of the image, whatever follows.
   */
  lemma PayloadBetweenCommas(head: string, data: string, tail: string)
    requires Comma !in head && Comma !in data
    requires tail == [] || tail[0] == Comma
    ensures Payload(head + [Comma] + data + tail) == Some(data)
  {
    SplitAtSeparator(head, data + tail, Comma);
    assert head + [Comma] + data + tail == head + [Comma] + (data + tail);
    if tail == [] {
      assert data + tail == data;
      SplitFree(data, Comma);
    } else {
      assert data + tail == data + [Comma] + tail[1..];
      SplitAtSeparator(data, tail[1..], Comma);
    }
  }

  /** `data:<mediatype>;base64,<data>`, the form the clients send. */
  function Base64Url(mediatype: string, data: string): string {
    "data:" + mediatype + ";base64" + [Comma] + data
  }

  /**
   * For a base64 data URL (base64 text has no commas) whose media type has
   * none either, the extraction yields exactly the encoded data.
   */
  lemma PayloadOfBase64Url(mediatype: string, data: string)
    requires Comma !in mediatype && Comma !in data
    ensures Payload(Base64Url(mediatype, data)) == Some(data)
  {
    var head := "data:" + mediatype + ";base64";
    assert Comma !in head;
    assert Base64Url(mediatype, data) == head + [Comma] + data + [];
    PayloadBetweenCommas(head, data, []);
  }
}

=== FILE: dedup_window.dfy ===
/**
 * The dedup window (`processedIdList`): the ids of recent `/print` requests,
 * oldest first. A request whose id is in the window is dropped; a failed
 * print takes its id out again so that a retry can get through.
 */
module DedupWindow {
  import opened Bounded

  /** No id occurs twice. */
  predicate NoDup<T(==,!new)>(w: seq<T>) {
    forall i, j :: 0 <= i < j < |w| ==> w[i] != w[j]
  }

  /** What the window looks like from an empty start under any events. */
  predicate WellFormed<T(==,!new)>(w: seq<T>) {
    |w| <= Capacity && NoDup(w)
  }

  /** The outcome of the duplicate check at the head of `/print`. */
  datatype Admission<T> = Duplicate | Admitted(window: seq<T>)

  /**
   * `if (list.includes(id)) return; list.push(id); list = list.slice(-10);`
   * as one step: there is no suspension point between the check and the push.
   */
  function Admit<T(==,!new)>(w: seq<T>, id: T): (r: Admission<T>)
    ensures r.Duplicate? <==> id in w
    ensures r.Admitted? ==> |r.window| == if |w| < Capacity then |w| + 1 else Capacity
    ensures r.Admitted? ==> r.window[|r.window| - 1] == id
    ensures r.Admitted? ==> r.window[..|r.window| - 1] == w[|w| - (|r.window| - 1)..]
  {
    if id in w then Duplicate else Admitted(Push(w, id))
  }

  /** `list.filter((item) => item !== id)`, run when a print throws. */
  function Forget<T(==,!new)>(w: seq<T>, id: T): (r: seq<T>)
    ensures |r| <= |w|
    ensures forall x :: x in r <==> x in w && x != id
  {
    if |w| == 0 then []
    else
      assert w == [w[0]] + w[1..];
      (if w[0] == id then [] else [w[0]]) + Forget(w[1..], id)
  }

  /** Filtering a concatenation filters each part: the kept ids keep their order. */
  lemma {:induction false} ForgetConcat<T(!new)>(a: seq<T>, b: seq<T>, id: T)
    ensures Forget(a + b, id) == Forget(a, id) + Forget(b, id)
    decreases |a|
  {
    if |a| == 0 {
      assert a + b == b;
      assert Forget(a, id) + Forget(b, id) == Forget(b, id);
    } else {
      var head: seq<T> := if a[0] == id then [] else [a[0]];
      assert (a + b)[0] == a[0] && (a + b)[1..] == a[1..] + b;
      ForgetConcat(a[1..], b, id);
      assert Forget(a + b, id) == head + Forget(a[1..] + b, id);
      assert Forget(a, id) == head + Forget(a[1..], id);
      assert head + (Forget(a[1..], id) + Forget(b, id)) == (head + Forget(a[1..], id)) + Forget(b, id);
    }
  }

  /** An absent id leaves the window exactly as it was. */
  lemma {:induction false} ForgetAbsent<T(!new)>(w: seq<T>, id: T)
    requires id !in w
    ensures Forget(w, id) == w
    decreases |w|
  {
    if |w| > 0 {
      ForgetAbsent(w[1..], id);
      assert w == [w[0]] + w[1..];
    }
  }

  /**
   * In a window without duplicates, forgetting the id found at index `i`
   * cuts out exactly that one entry and leaves the rest in order.
   */
  lemma ForgetAt<T(!new)>(w: seq<T>, i: nat)
    requires NoDup(w) && i < |w|
    ensures Forget(w, w[i]) == w[..i] + w[i + 1..]
  {
    var id := w[i];
    var before, after := w[..i], w[i + 1..];
    assert id !in before by {
      forall k | 0 <= k < |before|
        ensures before[k] != id
      {
        assert before[k] == w[k];
      }
    }
    assert id !in after by {
      forall k | 0 <= k < |after|
        ensures after[k] != id
      {
        assert after[k] == w[i + 1 + k];
      }
    }
    ForgetAbsent(before, id);
    ForgetAbsent(after, id);
    assert ([id] + after)[1..] == after;
    assert Forget([id] + after, id) == Forget(after, id);
    Around(w, i);
    ForgetConcat(before, [id] + after, id);
  }

  /** A sequence is what comes before index `i`, the element there, and what follows. */
  lemma Around<T>(w: seq<T>, i: nat)
    requires i < |w|
    ensures w == w[..i] + ([w[i]] + w[i + 1..])
  {
  }

  /** Every suffix of a window without duplicates has none either. */
  lemma NoDupSuffix<T(!new)>(w: seq<T>, k: nat)
    requires NoDup(w) && k <= |w|
    ensures NoDup(w[k..])
  {
  }

  /** Admitting a new id keeps the window well formed. */
  lemma AdmitPreserves<T(!new)>(w: seq<T>, id: T)
    ensures WellFormed(w) && Admit(w, id).Admitted? ==> WellFormed(Admit(w, id).window)
  {
  }

  /** Forgetting an id keeps the window well formed. */
  lemma {:induction false} ForgetPreserves<T(!new)>(w: seq<T>, id: T)
    ensures WellFormed(w) ==> WellFormed(Forget(w, id))
    decreases |w|
  {
    if WellFormed(w) && |w| > 0 {
      NoDupSuffix(w, 1);
      ForgetPreserves(w[1..], id);
      var rest := Forget(w[1..], id);
      if w[0] != id {
        assert w[0] !in w[1..] by {
          forall j | 0 <= j < |w[1..]|
            ensures w[1..][j] != w[0]
          {
            assert w[1..][j] == w[j + 1];
          }
        }
        var r := [w[0]] + rest;
        assert NoDup(r) by {
          forall i, j | 0 <= i < j < |r|
            ensures r[i] != r[j]
          {
            if i == 0 {
              assert r[j] == rest[j - 1] && r[j] in rest;
            } else {
              assert r[i] == rest[i - 1] && r[j] == rest[j - 1];
            }
          }
        }
      }
    }
  }

  /**
   * Once the window is full, admitting a new id evicts exactly the oldest
   * entry: after ten other ids, the first may be submitted again.
   */
  lemma AdmitEvictsOldest<T(!new)>(w: seq<T>, id: T)
    requires WellFormed(w) && |w| == Capacity && id !in w
    ensures Admit(w, id) == Admitted(w[1..] + [id])
    ensures w[0] !in Admit(w, id).window
  {
  }

  /** What happens to the window: a `/print` arrives, or a `print` call throws. */
  datatype Event<T> = Arrives(id: T) | Fails(id: T)

  /** The window after one event; a duplicate arrival leaves it alone. */
  function Next<T(==,!new)>(w: seq<T>, e: Event<T>): seq<T> {
    match e
    case Arrives(id) =>
      (match Admit(w, id)
       case Duplicate => w
       case Admitted(w') => w')
    case Fails(id) => Forget(w, id)
  }

  /** The window after a sequence of events, first to last. */
  function Replay<T(==,!new)>(w: seq<T>, events: seq<Event<T>>): seq<T>
    decreases |events|
  {
    if |events| == 0 then w else Replay(Next(w, events[0]), events[1..])
  }

  /**
   * Under any mix of arrivals and failures, a window that starts well formed
   * (the empty one does) never holds more than ten ids nor any id twice.
   */
  lemma {:induction false} ReplayKeepsWellFormed<T(!new)>(w: seq<T>, events: seq<Event<T>>)
    requires WellFormed(w)
    ensures WellFormed(Replay(w, events))
    decreases |events|
  {
    if |events| > 0 {
      match events[0] {
        case Arrives(id) => AdmitPreserves(w, id);
        case Fails(id) => ForgetPreserves(w, id);
      }
      ReplayKeepsWellFormed(Next(w, events[0]), events[1..]);
    }
  }

  /** Replaying two runs of events one after the other. */
  lemma {:induction false} ReplayConcat<T(!new)>(w: seq<T>, a: seq<Event<T>>, b: seq<Event<T>>)
    ensures Replay(w, a + b) == Replay(Replay(w, a), b)
    decreases |a|
  {
    if |a| == 0 {
      assert a + b == b;
    } else {
      assert (a + b)[0] == a[0] && (a + b)[1..] == a[1..] + b;
      ReplayConcat(Next(w, a[0]), a[1..], b);
    }
  }
}

=== FILE: json.dfy ===
/**
 * The values a request body can hold once `express.json` has parsed it,
 * together with the two JavaScript operations the server applies to them:
 * truthiness (`if (!x)`) and property reads (`x.key`).
 */
module Json {
  import opened Wrappers

  /**
   * A JavaScript value reachable from a parsed JSON body. Numbers are exact
   * reals: JSON has no NaN and `-0` equals `0` under both `includes` and `!==`,
   * but the rounding of numerals to doubles (and overflow to `Infinity`) is
   * not modelled.
   * Strings are sequences of Unicode scalar values, while JavaScript strings
   * are UTF-16: a JSON string holding an unpaired surrogate escape such as
   * `"\ud800"` has no `Str` value. On every other string, equality and
   * `split(",")` agree with JavaScript's.
   * `Buffer` stands for `Buffer.from(text, "base64")`; the decoding itself is a
   * library call, so the buffer is represented by the text it is decoded from.
   */
  datatype Value =
    | Undefined
    | Null
    | Bool(b: bool)
    | Num(x: real)
    | Str(s: string)
    | Arr(items: seq<Value>)
    | Obj(fields: map<string, Value>)
    | Buffer(base64: string)

  /** The keys of the request body and printer config the server reads or sets. */
  const IdKey := "id"
  const ImageKey := "image"
  const PrinterConfigKey := "printerConfig"
  const AddressKey := "TCP_ADDRESS"
  const BufferKey := "imgBuffer"

  /** None of these keys is a built-in property of strings, arrays or buffers. */
  const ServerKeys: set<string> := {IdKey, ImageKey, PrinterConfigKey, AddressKey, BufferKey}

  /** A request body: a JSON object. */
  type Body = map<string, Value>

  /** JavaScript truthiness: `false`, `0`, `""`, `null` and `undefined` are falsy. */
  predicate Truthy(v: Value) {
    match v
    case Undefined => false
    case Null => false
    case Bool(b) => b
    case Num(x) => x != 0.0
    case Str(s) => s != ""
    case _ => true
  }

  /** `body.key`: a missing key reads as `undefined`. */
  function Field(body: Body, key: string): Value {
    if key in body then body[key] else Undefined
  }

  /**
   * `v.key` for one of the keys the server reads (`TCP_ADDRESS`, `image`, ...).
   * Reading a property of `undefined` or `null` throws a TypeError (`None`);
   * on every other non-object value those keys are simply absent.
   */
  function Property(v: Value, key: string): (r: Option<Value>)
    requires key in ServerKeys
    ensures r.None? <==> v.Undefined? || v.Null?
    ensures v.Obj? ==> r == Some(Field(v.fields, key))
    ensures r.Some? && !v.Obj? ==> r.value == Undefined
  {
    match v
    case Undefined => None
    case Null => None
    case Obj(fields) => Some(Field(fields, key))
    case _ => Some(Undefined)
  }
}

=== FILE: printer.dfy ===
/**
 * `createPrinter` and `print` of index.js, with the `node-thermal-printer`
 * driver replaced by the outcome it reports, and the response shapes the
 * routes send.
 */
module Printer {
  import opened Wrappers
  import opened Json
  import DataUrl

  /** The error messages the server itself throws. */
  const AddressNotDefinedText := "Printer TCP address is not defined."
  const ImageNotFoundText := "could not find image."
  const PrinterNotFoundText := "could not find printer"

  /**
   * Everything that can be thrown on the way to a print. The first three are
   * thrown by the server; the next three are TypeErrors raised by the
   * JavaScript runtime; the last is whatever the driver throws.
   */
  datatype Error =
    | AddressNotDefined
    | ImageNotFound
    | PrinterNotFound
    | ConfigUnreadable          // reading `TCP_ADDRESS` of `undefined` or `null`
    | ImageNotText              // calling `split` on an image that is not a string
    | PayloadMissing            // `Buffer.from(undefined, "base64")`: no comma in the image
    | DeviceFailure(message: string)

  /**
   * The `errorMessage` sent for an error. The wording of runtime TypeErrors
   * belongs to the JavaScript engine and is not modelled (`None`).
   */
  function Message(e: Error): Option<string> {
    match e
    case AddressNotDefined => Some(AddressNotDefinedText)
    case ImageNotFound => Some(ImageNotFoundText)
    case PrinterNotFound => Some(PrinterNotFoundText)
    case DeviceFailure(m) => Some(m)
    case _ => None
  }

  /** What the driver does with a print job: it completes, or it throws. */
  datatype Device = Completes | Throws(message: string)

  /** What `isPrinterConnected` does: it answers, or it throws. */
  datatype Probe = Answers(connected: bool) | ProbeThrows(message: string)

  /** A driver handle: the address it talks to and the config kept as `DETAILS`. */
  datatype Printer = Printer(interface: Value, details: Value)

  /** The JSON objects the routes send back. */
  datatype Response =
    | Printed(id: Value, data: Body)                          // { SUCCESS: true, id, data }
    | Failed(request: Option<Body>, error: Error)             // { data: request, ERROR: true, errorMessage }, None is null
    | Health(config: Body, connected: bool, fault: Option<Error>)  // { ...config, connected[, ERROR: true, errorMessage] }

  /**
   * `createPrinter(config)`: only an object with a truthy `TCP_ADDRESS`
   * yields a printer; nothing here touches the device.
   */
  function CreatePrinter(config: Value): (r: Result<Printer, Error>)
    ensures r.Success? <==> config.Obj? && Truthy(Field(config.fields, AddressKey))
    ensures r.Success? ==> r.value.interface == Field(config.fields, AddressKey) && r.value.details == config
    ensures r.Failure? ==> r.error == (if config.Undefined? || config.Null? then ConfigUnreadable else AddressNotDefined)
    ensures r.Failure? && !r.error.ConfigUnreadable? ==> Message(r.error) == Some("Printer TCP address is not defined.")
  {
    match Property(config, AddressKey)
    case None => Failure(ConfigUnreadable)
    case Some(address) =>
      if !Truthy(address) then Failure(AddressNotDefined) else Success(Printer(address, config))
  }

  /**
   * `Buffer.from(image.split(",")[1], "base64")` up to the decoding: the
   * base64 text, or the TypeError the runtime throws on the way.
   */
  function ImagePayload(image: Value): (r: Result<string, Error>)
    ensures r.Success? <==> image.Str? && DataUrl.Comma in image.s
    ensures r.Success? ==> DataUrl.Comma !in r.value && DataUrl.Payload(image.s) == Some(r.value)
    ensures r.Failure? ==> r.error == (if image.Str? then PayloadMissing else ImageNotText)
  {
    match image
    case Str(s) =>
      (match DataUrl.Payload(s)
       case Some(p) => Success(p)
       case None => Failure(PayloadMissing))
    case _ => Failure(ImageNotText)
  }

  /**
   * The `try` block of `print(data)`: build the printer, extract the image,
   * then hand both to the driver. The value is what `print` returns or, as a
   * `Failure`, what it throws. The window bookkeeping of its `catch` block is
   * in the Server module.
   */
  function Attempt(data: Body, device: Device): (r: Result<Response, Error>)
    ensures r.Success? <==>
      && CreatePrinter(Field(data, PrinterConfigKey)).Success?
      && ImagePayload(Field(data, ImageKey)).Success?
      && device.Completes?
    ensures r.Success? ==> r.value == Printed(Field(data, IdKey), data)
    ensures CreatePrinter(Field(data, PrinterConfigKey)).Failure? ==>
      r == Failure(CreatePrinter(Field(data, PrinterConfigKey)).error)
    ensures CreatePrinter(Field(data, PrinterConfigKey)).Success? && ImagePayload(Field(data, ImageKey)).Failure? ==>
      r == Failure(ImagePayload(Field(data, ImageKey)).error)
    ensures
      && CreatePrinter(Field(data, PrinterConfigKey)).Success?
      && ImagePayload(Field(data, ImageKey)).Success?
      && device.Throws?
      ==> r == Failure(DeviceFailure(device.message))
    ensures r.Failure? && r.error.DeviceFailure? ==> device == Throws(r.error.message)
  {
    var printer :- CreatePrinter(Field(data, PrinterConfigKey));
    var payload :- ImagePayload(Field(data, ImageKey));
    match device
    case Completes => Success(Printed(Field(data, IdKey), data))
    case Throws(m) => Failure(DeviceFailure(m))
  }
}

=== FILE: server.dfy ===
/**
 * The routes of index.js over the server's two module-level lists: the dedup
 * window `processedIdList` and the outcome log `printActionLogs`. There is no
 * job queue: concurrent `/print` requests run `print` concurrently, so a
 * `/print` request is two events, its synchronous admission and the later
 * settling of its `print` call, and any other events may come in between.
 * When `print` throws before its first `await` (no address, an image that is
 * not a string or has no comma), its `catch` runs in the same turn as the
 * admission, so nothing can come in between; letting events interleave there
 * too over-approximates the code, which every lemma here tolerates.
 */
module Server {
  import opened Wrappers
  import opened Json
  import opened Bounded
  import opened DedupWindow
  import opened Printer

  /** `processedIdList` and `printActionLogs`, oldest entries first. */
  datatype State = State(window: seq<Value>, log: seq<Response>)

  /** Both lists start empty. */
  const Initial: State := State([], [])

  /** Both lists are bounded and the window holds each id at most once. */
  predicate Valid(st: State) {
    WellFormed(st.window) && |st.log| <= Capacity
  }

  /** The window after `print` settles, and what it returned or threw. */
  datatype Printing = Printing(window: seq<Value>, outcome: Result<Response, Error>)

  /**
   * `print(data)`: the driver work of `Attempt`, and on a throw the `catch`
   * block that removes every copy of `data.id` from the window.
   */
  function Print(window: seq<Value>, data: Body, device: Device): (r: Printing)
    ensures r.outcome == Attempt(data, device)
    ensures r.outcome.Success? ==> r.window == window
    ensures r.outcome.Failure? ==> r.window == Forget(window, Field(data, IdKey))
    ensures r.outcome.Failure? ==> Admit(r.window, Field(data, IdKey)).Admitted?
    ensures WellFormed(window) ==> WellFormed(r.window)
  {
    var outcome := Attempt(data, device);
    if outcome.Success? then Printing(window, outcome)
    else
      ForgetPreserves(window, Field(data, IdKey));
      Printing(Forget(window, Field(data, IdKey)), outcome)
  }

  /** How the head of `/print` (lines 82–87) treats a request. */
  datatype Arrival = Ignored | Started(state: State)

  /**
   * The synchronous head of `/print`: a request whose id is in the window is
   * dropped without a response; any other id becomes the newest entry.
   */
  function ArrivePrint(st: State, body: Body): (r: Arrival)
    ensures r.Ignored? <==> Field(body, IdKey) in st.window
    ensures r.Started? ==> r.state.log == st.log
    ensures r.Started? ==> r.state.window == Admit(st.window, Field(body, IdKey)).window
    ensures r.Started? ==> |r.state.window| > 0 && r.state.window[|r.state.window| - 1] == Field(body, IdKey)
    ensures r.Started? && Valid(st) ==> Valid(r.state)
  {
    var admission := Admit(st.window, Field(body, IdKey));
    match admission
    case Duplicate => Ignored
    case Admitted(w) =>
      AdmitPreserves(st.window, Field(body, IdKey));
      Started(State(w, st.log))
  }

  /** The state after an event and the response it sends. */
  datatype Step = Step(state: State, response: Response)

  /**
   * The rest of `/print` once `print(req.body)` settles: a result is sent
   * and then logged; an error is sent with the original body.
   */
  function SettlePrint(st: State, body: Body, device: Device): (r: Step)
    ensures r.response.Printed? <==> Attempt(body, device).Success?
    ensures r.response.Printed? ==> r.response == Printed(Field(body, IdKey), body)
    ensures r.response.Printed? ==> r.state.window == st.window && r.state.log == Push(st.log, r.response)
    ensures Attempt(body, device).Failure? ==> r.response == Failed(Some(body), Attempt(body, device).error)
    ensures r.response.Failed? ==> r.state.log == st.log && Field(body, IdKey) !in r.state.window
    ensures r.response.Failed? ==> r.state.window == Forget(st.window, Field(body, IdKey))
    ensures Valid(st) ==> Valid(r.state)
  {
    var p := Print(st.window, body, device);
    match p.outcome
    case Success(result) => Step(State(p.window, Push(st.log, result)), result)
    case Failure(e) => Step(State(p.window, st.log), Failed(Some(body), e))
  }

  /**
   * `{ ...req.body, imgBuffer: buffer }`, the data `/test` hands to `print`:
   * every key of the body is copied, and `imgBuffer` is set last, so it wins.
   */
  function WithBuffer(body: Body, payload: string): (r: Body)
    ensures r.Keys == body.Keys + {BufferKey}
    ensures Field(r, BufferKey) == Buffer(payload)
    ensures forall k :: k != BufferKey ==> Field(r, k) == Field(body, k)
  {
    body[BufferKey := Buffer(payload)]
  }

  /**
   * `/test`: the image is checked before the printer config, and the image
   * text is extracted before `print` is called; only a failing `print`
   * touches the window, and nothing is logged.
   */
  function Test(st: State, body: Body, device: Device): (r: Step)
    ensures !Truthy(Field(body, ImageKey)) ==> r == Step(st, Failed(None, ImageNotFound))
    ensures !Truthy(Field(body, ImageKey)) ==> Message(r.response.error) == Some("could not find image.")
    ensures Truthy(Field(body, ImageKey)) && !Truthy(Field(body, PrinterConfigKey)) ==>
      r == Step(st, Failed(None, PrinterNotFound))
    ensures Truthy(Field(body, ImageKey)) && !Truthy(Field(body, PrinterConfigKey)) ==>
      Message(r.response.error) == Some("could not find printer")
    ensures Truthy(Field(body, ImageKey)) && Truthy(Field(body, PrinterConfigKey)) && ImagePayload(Field(body, ImageKey)).Failure? ==>
      r == Step(st, Failed(None, ImagePayload(Field(body, ImageKey)).error))
    ensures TestPrints(body) ==>
      (r.response.Printed? <==> Attempt(WithBuffer(body, ImagePayload(Field(body, ImageKey)).value), device).Success?)
    ensures TestPrints(body) && Attempt(WithBuffer(body, ImagePayload(Field(body, ImageKey)).value), device).Failure? ==>
      && r.response == Failed(None, Attempt(WithBuffer(body, ImagePayload(Field(body, ImageKey)).value), device).error)
      && r.state.window == Forget(st.window, Field(body, IdKey))
    ensures r.response.Failed? ==> r.response.request.None?
    ensures r.response.Printed? ==>
      && ImagePayload(Field(body, ImageKey)).Success?
      && r.response == Printed(Field(body, IdKey), WithBuffer(body, ImagePayload(Field(body, ImageKey)).value))
    ensures r.state.log == st.log
    ensures r.state.window == st.window || (r.response.Failed? && r.state.window == Forget(st.window, Field(body, IdKey)))
    ensures Valid(st) ==> Valid(r.state)
  {
    var image := Field(body, ImageKey);
    if !Truthy(image) then Step(st, Failed(None, ImageNotFound))
    else if !Truthy(Field(body, PrinterConfigKey)) then Step(st, Failed(None, PrinterNotFound))
    else
      match ImagePayload(image)
      case Failure(e) => Step(st, Failed(None, e))
      case Success(payload) =>
        var data := WithBuffer(body, payload);
        var p := Print(st.window, data, device);
        match p.outcome
        case Success(result) => Step(State(p.window, st.log), result)
        case Failure(e) => Step(State(p.window, st.log), Failed(None, e))
  }

  /**
   * `/health-check`: the body itself is the printer config; a missing
   * address and a throwing probe both report `connected: false`.
   */
  function HealthCheck(body: Body, probe: Probe): (r: Response)
    ensures r.Health? && r.config == body
    ensures r.connected <==> Truthy(Field(body, AddressKey)) && probe == Answers(true)
    ensures r.fault.None? <==> Truthy(Field(body, AddressKey)) && probe.Answers?
    ensures !Truthy(Field(body, AddressKey)) ==> r.fault == Some(AddressNotDefined)
    ensures Truthy(Field(body, AddressKey)) && probe.ProbeThrows? ==> r.fault == Some(DeviceFailure(probe.message))
  {
    match CreatePrinter(Obj(body))
    case Failure(e) => Health(body, false, Some(e))
    case Success(_) =>
      match probe
      case Answers(c) => Health(body, c, None)
      case ProbeThrows(m) => Health(body, false, Some(DeviceFailure(m)))
  }

  /** Everything that can happen to the server's state, in any interleaving. */
  datatype Event =
    | PrintArrives(body: Body)
    | PrintSettles(body: Body, device: Device)
    | TestCall(body: Body, device: Device)
    | HealthCall(body: Body, probe: Probe)

  /** The state after one event. */
  function Apply(st: State, e: Event): (r: State)
    ensures Valid(st) ==> Valid(r)
  {
    match e
    case PrintArrives(body) =>
      (match ArrivePrint(st, body)
       case Ignored => st
       case Started(s) => s)
    case PrintSettles(body, device) => SettlePrint(st, body, device).state
    case TestCall(body, device) => Test(st, body, device).state
    case HealthCall(_, _) => st
  }

  /** The state after a sequence of events, first to last. */
  function Run(st: State, events: seq<Event>): State
    decreases |events|
  {
    if |events| == 0 then st else Run(Apply(st, events[0]), events[1..])
  }

  /**
   * Starting from empty lists, the window never holds more than ten ids nor
   * any id twice, and the log never more than ten entries.
   */
  lemma AlwaysValid(events: seq<Event>)
    ensures WellFormed(Run(Initial, events).window)
    ensures |Run(Initial, events).log| <= Capacity
  {
    RunMovesWindow(Initial, events);
    ReplayKeepsWellFormed([], WindowEffects(events));
    LogIsNewestCompleted(Initial, events);
  }

  /** What an event adds to the log: the result of a `/print` that succeeded. */
  function Logged(e: Event): seq<Response> {
    match e
    case PrintSettles(body, device) =>
      (match Attempt(body, device)
       case Success(result) => [result]
       case Failure(_) => [])
    case _ => []
  }

  /** The results of the `/print` calls that succeeded, in the order they settled. */
  function Completed(events: seq<Event>): seq<Response>
    decreases |events|
  {
    if |events| == 0 then [] else Logged(events[0]) + Completed(events[1..])
  }

  /** One event appends at most its own successful result to the log. */
  lemma ApplyLogs(st: State, e: Event)
    requires |st.log| <= Capacity
    ensures Apply(st, e).log == Last(st.log + Logged(e), Capacity)
  {
  }

  /** Trimming after each of two appends is trimming once after both. */
  lemma TrimTwice(log: seq<Response>, here: seq<Response>, rest: seq<Response>)
    ensures Last(Last(log + here, Capacity) + rest, Capacity) == Last(log + (here + rest), Capacity)
  {
  }

  /**
   * The log is exactly the last ten results of successful `/print` calls,
   * oldest first: duplicates, failures, `/test` and health checks never
   * reach it.
   */
  lemma {:induction false} LogIsNewestCompleted(st: State, events: seq<Event>)
    requires |st.log| <= Capacity
    ensures Run(st, events).log == Last(st.log + Completed(events), Capacity)
    decreases |events|
  {
    if |events| == 0 {
      assert st.log + [] == st.log;
    } else {
      var next := Apply(st, events[0]);
      var here := Logged(events[0]);
      var rest := Completed(events[1..]);
      ApplyLogs(st, events[0]);
      LogIsNewestCompleted(next, events[1..]);
      TrimTwice(st.log, here, rest);
    }
  }

  /** `/test` passes its checks and calls `print`. */
  predicate TestPrints(body: Body) {
    && Truthy(Field(body, ImageKey))
    && Truthy(Field(body, PrinterConfigKey))
    && ImagePayload(Field(body, ImageKey)).Success?
  }

  /** The window's share of an event: an arrival, a `print` that throws, or nothing. */
  function WindowEffect(e: Event): seq<DedupWindow.Event<Value>> {
    match e
    case PrintArrives(body) => [DedupWindow.Arrives(Field(body, IdKey))]
    case PrintSettles(body, device) =>
      if Attempt(body, device).Failure? then [DedupWindow.Fails(Field(body, IdKey))] else []
    case TestCall(body, device) =>
      if TestPrints(body) && Attempt(WithBuffer(body, ImagePayload(Field(body, ImageKey)).value), device).Failure?
      then [DedupWindow.Fails(Field(body, IdKey))]
      else []
    case HealthCall(_, _) => []
  }

  /** The window's share of a sequence of events. */
  function WindowEffects(events: seq<Event>): seq<DedupWindow.Event<Value>>
    decreases |events|
  {
    if |events| == 0 then [] else WindowEffect(events[0]) + WindowEffects(events[1..])
  }

  /** One server event moves the window exactly as its window events do. */
  lemma ApplyMovesWindow(st: State, e: Event)
    ensures Apply(st, e).window == Replay(st.window, WindowEffect(e))
  {
  }

  /**
   * The server's window is the dedup window driven only by `/print`
   * arrivals and by `print` calls that throw, from `/print` or `/test`;
   * successes, `/test` rejections and health checks never touch it.
   */
  lemma {:induction false} RunMovesWindow(st: State, events: seq<Event>)
    ensures Run(st, events).window == Replay(st.window, WindowEffects(events))
    decreases |events|
  {
    if |events| > 0 {
      var next := Apply(st, events[0]);
      assert Run(st, events) == Run(next, events[1..]);
      ApplyMovesWindow(st, events[0]);
      RunMovesWindow(next, events[1..]);
      ReplayConcat(st.window, WindowEffect(events[0]), WindowEffects(events[1..]));
    }
  }

  /**
   * A failed `/test` with an id drops that id from the window even though
   * `/test` never admitted it, so a `/print` with the same id is admitted.
   */
  lemma TestFailureReopensId(st: State, body: Body, device: Device, retry: Body)
    requires TestPrints(body)
    requires Attempt(WithBuffer(body, ImagePayload(Field(body, ImageKey)).value), device).Failure?
    requires Field(retry, IdKey) == Field(body, IdKey)
    ensures ArrivePrint(Test(st, body, device).state, retry).Started?
  {
  }

  /**
   * The same id submitted twice back to back, with no event in between, is
   * admitted only once. Events in between can re-open the id: a failing
   * `print` of that id, from `/test` as well (`TestFailureReopensId`), or ten
   * other admissions that evict it (`AdmitEvictsOldest`).
   */
  lemma SecondSubmissionIgnored(st: State, first: Body, second: Body)
    requires ArrivePrint(st, first).Started?
    requires Field(second, IdKey) == Field(first, IdKey)
    ensures ArrivePrint(ArrivePrint(st, first).state, second).Ignored?
  {
  }
}

=== FILE: wrappers.dfy ===
/**
 * The two ways a step of the server can come out short: a value that is not
 * there (`undefined`), and an operation that throws. `Result` supports `:-`,
 * so a chain of steps stops at the first throw, as a `try` block does.
 */
module Wrappers {

  /** `Some` value, or the `undefined` of an absent one. */
  datatype Option<+T> = None | Some(value: T)

  /** What a step returns, or (`Failure`) the error it throws. */
  datatype Result<+T, +E> = Success(value: T) | Failure(error: E) {

    predicate IsFailure() {
      Failure?
    }

    function PropagateFailure<U>(): Result<U, E>
      requires Failure?
    {
      Failure(error)
    }

    function Extract(): T
      requires Success?
    {
      value
    }
  }
}
